=== FILE: README.md ===
# Network-Security decision rules in Dafny

This project models the small, pure decision rules threaded through the
Network-Security repository: a phishing-URL classifier with a Next.js client and
a FastAPI/scikit-learn back end. Each rule is a pure function or a single-step
state transition over immutable datatypes. The browser, the network, pandas,
scipy and the ML model are abstract inputs.

- **Results view** (`Results`): it reads the raw report that the upload left in
  session storage. It buckets every table body row by substring tests on the
  row's last cell. "Legitimate" beats "Suspicious"; anything else is Unknown. It
  then builds `{total, legitimate, suspicious}`, or redirects home, or shows
  "No results found". Also covered: the headline, the percentages and the
  constant CSV export.
- **Session store** (`SessionStore`): the one-slot `sessionStorage` hand-off
  under the key `analysisResults`.
- **Upload widget** (`FileUpload`): the state `{file, error, isUploading,
  dragActive}`, plus the session store and the router. Transitions are drag
  events, drop, file pick, and upload with an abstract response. The response is
  an ok body, a non-ok status or a transport failure.
- **Training view** (`Training`): the state `{isTraining, status, message,
  progress}`, plus whether the progress timer is live. Covered are the start,
  the timer tick (a bounded nondeterministic `delta` in `[0, 15)`), the
  response, and the progress-to-phase label.
- **Data validation** (`DataValidation`): how the expected columns are read from
  the schema, the column-count check, drift flagging from per-column p-values,
  and the valid/invalid routing and artifact of `initiate_data_validation`.
- **Prediction explanations** (`Prediction`): the per-prediction explanation
  text and where the `threat_explanation` column ends up in the rendered frame.
- **Requirements filter** (`Requirements`): `get_requirements` of `setup.py`
  over the file's lines. It uses Python's `str.strip()`, modelled in `Strings`
  together with JavaScript's `includes`.
- **Pipeline**: lemmas that join the pieces. An ok upload hands exactly its body
  to the results view. The server's explanation strings decide what the results
  view counts: nothing is ever Legitimate, and only prediction 1 is Suspicious.

Four behaviours of the code are easy to misread:

- A rejected file keeps the previously held file: the error is set and the file
  state is left alone (file-upload.tsx:37-39, 47-49).
- The stored report counts as missing when the key is absent or holds the empty
  string, by JavaScript truthiness (results/page.tsx:24-28).
- The artifact's invalid-path field is the configured value. That value may be
  `None`, in which case neither path field of that frame is set
  (data_validation.py:126-131).
- An upload without data rows never gets a table: `predict_route` prints
  `df.iloc[0]` before predicting, which raises on an empty frame, and the
  widget then shows its backend-connection error (app.py:76, 103-104).

## Model

| member | source | states |
|---|---|---|
| Strings.Contains | Client/app/results/page.tsx:41-43 | the scanning substring test behind `includes`; what it means is stated by ContainsIffOccurs |
| Strings.ContainsIffOccurs | Client/app/results/page.tsx:41-43 | `includes` holds iff the word occurs at some offset of the cell text |
| Strings.Strip | setup.py:15 | the result has no whitespace at either end, and it is the input with a whitespace prefix and a whitespace suffix cut off |
| Strings.TrimIsStrip | setup.py:15 | any such trimming with no whitespace left at the ends equals `strip()`, so the strip is unique |
| Strings.StripIdempotent | setup.py:15 | stripping a stripped line changes nothing |
| SessionStore.GetItem | Client/app/results/page.tsx:24 | `getItem` returns the stored text when the key is present, and null otherwise |
| SessionStore.SetItem | Client/components/file-upload.tsx:72 | after `setItem` the key reads back exactly the value written, and every other key reads as before |
| Results.Classify | Client/app/results/page.tsx:39-46 | a row is Legitimate iff its last cell mentions "Legitimate"; it is Suspicious iff the last cell mentions "Suspicious" but not "Legitimate"; a row without cells is in neither bucket |
| Results.Tally | Client/app/results/page.tsx:36-46 | the counters equal how often each bucket occurs among the rows; together with Unknown they add up to the row count, so each row bumps at most one counter |
| Results.LoadResults | Client/app/results/page.tsx:23-57 | no stored report: redirect home, no data, still loading; a report without a table: no data; a table: total is the number of body rows (Unknown included), the counts are the bucket counts, and legitimate + suspicious <= total |
| Results.HeadlineOf | Client/app/results/page.tsx:133-137 | the headline says "Found N suspicious" iff suspicious > 0, with N = suspicious; otherwise it says all URLs are legitimate |
| Results.Render | Client/app/results/page.tsx:74-181 | spinner iff loading; "No results found" iff loaded without data; otherwise a summary with the data's total, headline, legitimate count and suspicious count |
| Results.MissingReportRedirects | Client/app/results/page.tsx:24-28 | with nothing stored, the view navigates to `/`, sets no data and keeps its spinner |
| Results.NoTableShowsNoResults | Client/app/results/page.tsx:85-97 | a stored report without a table shows "No results found" and does not redirect |
| Results.EmptyTableShowsZero | Client/app/results/page.tsx:34-53 | a table with zero body rows still yields data, with total 0 and the all-legitimate headline |
| Results.AllUnknownReadsLegitimate | Client/app/results/page.tsx:133-137 | when every row is Unknown, the headline still says all URLs are legitimate while the legitimate count is 0 |
| Results.Percent | Client/app/results/page.tsx:99-100 | a share is a non-negative percentage whose product with total is count * 100, and it is at most 100 when count <= total |
| Results.SharesOfTally | Client/app/results/page.tsx:99-100 | the two displayed shares sum to at most 100, and to exactly 100 iff no row is Unknown |
| Results.ExportCsv | Client/app/results/page.tsx:59-72 | the export is two lines: the header `URL,Prediction,Threat Level` (three fields) and a placeholder line; it has a fixed file name and a CSV data-URI prefix, and it takes no analysed data |
| FileUpload.Select | Client/components/file-upload.tsx:33-49 | a file is accepted iff it exists and its type is exactly `text/csv`; accepting replaces the file and clears the error; rejecting sets the error and keeps the old file |
| FileUpload.HandleDrag | Client/components/file-upload.tsx:18-26 | dragenter and dragover set dragActive, dragleave clears it, and nothing else changes |
| FileUpload.HandleDrop | Client/components/file-upload.tsx:28-40 | a drop always clears dragActive and then applies the acceptance rule to the first dropped file |
| FileUpload.HandleFileChange | Client/components/file-upload.tsx:42-50 | a pick (the file list may be null) applies the acceptance rule to the first picked file |
| FileUpload.DropAndPickAgree | Client/components/file-upload.tsx:33-49 | drop and pick of the same list give the same file and error |
| FileUpload.BeginUpload | Client/components/file-upload.tsx:52-56 | while a request is in flight, isUploading is set, the error is cleared and the button is disabled |
| FileUpload.CompleteUpload | Client/components/file-upload.tsx:58-78 | ok and within the storage quota: the slot holds exactly the body, other keys are untouched, and the view navigates to `/results`; not ok, transport failure, or a `setItem` over the quota: store and router untouched, backend-connection error; always: isUploading is false and the file is kept |
| FileUpload.HandleUpload | Client/components/file-upload.tsx:52-79 | with no file, nothing at all changes; otherwise the outcomes of CompleteUpload hold, and an ok upload leaves no error |
| FileUpload.UploadEnabled | Client/components/file-upload.tsx:137 | the upload button is enabled iff a file is held and no upload is in progress |
| FileUpload.UploadLeavesButtonEnabled | Client/components/file-upload.tsx:135-138 | after every upload outcome the button is enabled again: a file is held and no upload is in progress |
| Training.StartTraining | Client/app/train/page.tsx:16-31 | starting sets isTraining, status idle, empty message, progress 0, and starts the timer |
| Training.Tick | Client/app/train/page.tsx:23-31 | a tick that sees progress >= 90 pins it to exactly 90 and stops the timer; below 90 progress grows by less than 15; a stopped timer changes nothing |
| Training.Finish | Client/app/train/page.tsx:33-53 | the status is success iff a response arrived and was ok, and error otherwise, including after a transport failure; a response sets progress to 100, a transport failure leaves progress alone; the message matches the status; isTraining and the timer end |
| Training.StepsPreserveValid | Client/app/train/page.tsx:16-53 | every transition keeps progress in [0, 105) and the timer live only during training |
| Training.TicksKeepRunning | Client/app/train/page.tsx:23-31 | any number of ticks keeps the state valid, the button disabled and the status unchanged |
| Training.TrainingRun | Client/app/train/page.tsx:16-53 | start, any ticks, then a response: progress stays below 105, the button is disabled until the end and enabled after it, and progress is 100 after a response |
| Training.StartDisabled | Client/app/train/page.tsx:160 | the start button is disabled iff a training request is running |
| Training.PhaseOf | Client/app/train/page.tsx:145-151 | each phase covers exactly its band: below 30, 30 to 60, 60 to 90, and 90 or more |
| Training.PhaseLabel | Client/app/train/page.tsx:145-151 | the sentence shown for each phase |
| Training.PhaseIsStepFunction | Client/app/train/page.tsx:145-151 | the phase never goes back as progress grows, and two progress values show the same label iff they are in the same phase |
| Training.RoundedPercent | Client/app/train/page.tsx:136 | the displayed percentage is within one half of the progress |
| Training.ProgressView | Client/app/train/page.tsx:132-153 | the progress area shows iff training runs, with the label for the current phase and `Math.round(progress)` as the percentage, which lies between 0 and 105 |
| DataValidation.Lookup | network_security/components/data_validation.py:33-34 | the lookup finds a value iff the key is present, and the value is that of the last entry with the key, as in the dict PyYAML builds |
| DataValidation.Dicts | network_security/components/data_validation.py:34 | exactly the dict entries of the column list are kept, and never more items than the list has |
| DataValidation.DictsCount | network_security/components/data_validation.py:34 | each dict is kept as often as it occurs in the list, and nothing else is kept |
| DataValidation.DictsDistributes | network_security/components/data_validation.py:34 | the filter works item by item: it distributes over concatenation, so the list order is kept |
| DataValidation.DictsSingle | network_security/components/data_validation.py:34 | a single item is kept iff it is a dict |
| DataValidation.FirstKeys | network_security/components/data_validation.py:34 | raises iff some dict entry is empty; otherwise it gives one name per dict entry, in order, each being that dict's first key |
| DataValidation.ColumnsOf | network_security/components/data_validation.py:34 | a list gives the first keys of its dicts; a dict or a string gives no columns; a number or null raises |
| DataValidation.SchemaColumns | network_security/components/data_validation.py:32-34 | a schema that is not a dict, or has no `columns` key, gives no columns |
| DataValidation.ValidateNumberOfColumns | network_security/components/data_validation.py:29-45 | true iff the frame's column count equals the schema's column count; a schema error raises |
| DataValidation.NoColumnsKeyExpectsNone | network_security/components/data_validation.py:32-43 | without a `columns` key, only a frame with zero columns is valid |
| DataValidation.DetectDatasetDrift | network_security/components/data_validation.py:47-75 | raises iff a base column is missing from the current frame; the report has one entry per base column, flagged iff p-value < threshold; status is true iff no column is flagged |
| DataValidation.NoColumnsNoDrift | network_security/components/data_validation.py:49-73 | with zero columns, the status is true and the report is empty |
| DataValidation.SaveFrame | network_security/components/data_validation.py:97-117 | a valid frame goes to its valid path; an invalid frame goes to its invalid path only if that path is truthy |
| DataValidation.InitiateDataValidation | network_security/components/data_validation.py:94-95 | a schema error raises before anything is written |
| DataValidation.DecisionTable | network_security/components/data_validation.py:119-133 | drift runs only when both frames are valid; otherwise the status is False and only frames are written, no drift report; with both valid, the report is written once, as the last write, and not at all when drift detection raises; each frame's valid field is its configured valid path iff the frame is valid; its invalid field is the configured path iff the frame is invalid; never both; the drift report is the last write |
| DataValidation.ExactlyOnePathPerFrame | network_security/components/data_validation.py:128-131 | with both invalid paths configured, exactly one path field is set per frame |
| DataValidation.FramesWrittenWhereRouted | network_security/components/data_validation.py:97-117 | each frame is written to its valid path iff valid, otherwise to its invalid path iff that is truthy, and nowhere else |
| Prediction.Explain | app.py:85-91 | 0 maps to the normal text, 1 to the suspicious text, and any other level to the high-risk text |
| Prediction.Explanations | app.py:84-92 | exactly one explanation per prediction, in the same order |
| Prediction.SetColumn | app.py:79-93 | a new label is appended as the last column; an existing label keeps the column order |
| Prediction.SetThenGet | app.py:79-93 | reading an assigned column gives the assigned values, and other columns are unchanged |
| Prediction.PredictRoute | app.py:69-104 | the route fails iff the upload has no rows (`df.iloc[0]` raises) or the prediction count differs from the row count; otherwise `predicted_column` holds the shown predictions, the `threat_explanation` column holds the explanations, and every other uploaded column keeps its cells |
| Prediction.ExplanationIsLastColumn | app.py:79-99 | unless the upload already has a `threat_explanation` column, the columns are the input's, then `predicted_column` if new, then `threat_explanation`; each row's last cell explains its prediction |
| Requirements.FilteredDistributes | setup.py:14-18 | the filter works line by line: lines keep their order and only filtered lines are dropped |
| Requirements.FilteredSingleLine | setup.py:15-18 | one line survives, stripped, iff it is not blank and not `-e .` after stripping |
| Requirements.FilteredAreStrippedAndKept | setup.py:15-18 | every requirement is a stripped input line that is neither empty nor `-e .` |
| Requirements.GetRequirements | setup.py:4-23 | a missing file gives the empty list; otherwise the result equals the line-by-line filter of the lines |
| Pipeline.UploadHandsReportToResults | Client/components/file-upload.tsx:71-73 | after an ok upload whose body fits in storage, the results view reads back exactly the body; an empty body bounces the user home |
| Pipeline.FailedUploadKeepsStoredReport | Client/components/file-upload.tsx:67-75 | a failed upload, including one over the storage quota, leaves the store and the navigation untouched |
| Pipeline.ExplanationWords | app.py:86-91 | no explanation mentions "Legitimate"; only the prediction-1 text mentions "Suspicious" |
| Pipeline.ExplanationBucket | Client/app/results/page.tsx:39-46 | a row ending in an explanation is Suspicious iff its prediction is 1, and Unknown otherwise |
| Pipeline.ExplainedRowsCounts | Client/app/results/page.tsx:36-46 | such rows give legitimate 0, and suspicious equals the number of predictions equal to 1 |
| Pipeline.ServerTableCounts | app.py:84-99 | for the server's own table, legitimate is always 0 and suspicious counts the predictions equal to 1 |
| Pipeline.EndToEnd | app.py:84-101 | upload, classification and display: total is the prediction count and legitimate is 0; the headline says all URLs are legitimate iff no prediction is 1, even if every row is high risk |
| Pipeline.EmptyUploadShowsBackendError | app.py:76 | an upload without data rows makes the route raise; whatever non-ok outcome reaches the widget (error status or rejected `fetch`), it shows the backend-connection error with storage and route unchanged |

## Left out

- DOM parsing (`DOMParser`, `querySelector("table")`, `tbody tr`, `td:last-child`) is an abstract `parse` function. A row is the text of its `td` cells, and a last child that is not a `td` is not modelled.
- Rendering details: the chart widget, `toFixed(1)` rounding, file names and sizes in the upload card, and the dashboard, home and layout pages, which are static presentation.
- Results.Percent: does not model `toFixed(1)` rounding. It requires `total > 0`, while the source divides without a guard and shows NaN for an empty table.
- Results.ExportCsv: the `encodeURI` step applied to the CSV text and the DOM anchor click are not modelled.
- `sessionStorage` persistence across reloads and tabs, and the router itself. The store is a map and navigation is a recorded path.
- `fetch`, the request URLs and multipart bodies. A response is a datatype: ok with body, non-ok status, or transport failure. Reading the body text is assumed to succeed. The storage quota is an abstract predicate of the browser on the whole store.
- Training.Tick: `Math.random()` is a `delta` in `[0, 15)`. Interval timing and the interleaving of ticks with the response are not modelled; a tick is a discrete step. Progress is an exact real, not a float.
- The 10 MB limit shown in the upload card is not enforced by the source, so the model does not enforce it either.
- Data validation I/O: pandas CSV reading and writing, YAML reading and writing, directory creation and logging. A frame is its column labels, and writes are recorded as a list.
- DataValidation.DetectDatasetDrift: the KS test (`ks_2samp`) is an abstract p-value per column label. A NaN p-value, which the source would flag as drift, has no counterpart among Dafny reals.
- DataValidation.InitiateDataValidation: its own contract covers only the schema-error case; the decision table is stated by DecisionTable and FramesWrittenWhereRouted. Exceptions from reading the input CSV files are not modelled.
- In `app.py`: model loading, `NetworkModel.predict`, writing `output.csv`, the `table.html` template, the FastAPI/CORS wiring and the `/train` route. The pipeline lemmas assume the template passes the table through unchanged.
- Prediction.SetColumn: an existing label is overwritten at every column that carries it. Uploads never reach that case with duplicates, because `pd.read_csv` renames duplicate headers (`a`, `a.1`), so pandas' behaviour on duplicate labels is not modelled.
- `push_data.py` (MongoDB upload) and `network_security/utils/main_utils/utils.py` (file, YAML and pickle I/O, model search) are I/O and ML plumbing.

=== FILE: data_validation.dfy ===
/** The decision logic of `network_security/components/data_validation.py`:
    reading the expected column list out of the schema, the column-count check,
    the drift flagging, and the valid/invalid routing of `initiate_data_validation`.
    Frames are reduced to their column labels; reading and writing CSV/YAML is
    recorded as a list of writes; the two-sample KS test is an abstract
    `pValue` function of the column label. */
module DataValidation {
  import opened Wrappers

  /** A value produced by `yaml.safe_load`: a mapping (dict, keys in document
      order), a sequence (list), a string, any other scalar (number, bool), or null. */
  datatype Yaml =
    | Mapping(entries: seq<(string, Yaml)>)
    | List(items: seq<Yaml>)
    | Str(text: string)
    | Scalar
    | Null

  /** Why a validation run raised `NetworkSecurityException`. */
  datatype ValidationError =
    | ColumnsNotIterable     // `schema['columns']` is a number, bool or null: TypeError
    | EmptyColumnEntry       // an empty dict in the list: IndexError on `list(col.keys())[0]`
    | MissingColumn(name: string)  // `current_df[column]`: KeyError

  const DefaultThreshold: real := 0.05

  // ---------------------------------------------------------------------------
  // Schema columns
  // ---------------------------------------------------------------------------

  /** `key in d` for a dict given by its entries. */
  predicate HasKey(entries: seq<(string, Yaml)>, key: string)
  {
    exists i :: 0 <= i < |entries| && entries[i].0 == key
  }

  /** `d[key]`: a later duplicate key overrides an earlier one, as when PyYAML builds a dict. */
  function Lookup(entries: seq<(string, Yaml)>, key: string): (v: Option<Yaml>)
    ensures v.Some? <==> HasKey(entries, key)
    ensures v.Some? ==> exists i :: 0 <= i < |entries| && entries[i] == (key, v.value) && LastWith(entries, key, i)
  {
    if entries == [] then None
    else if entries[|entries| - 1].0 == key then
      assert LastWith(entries, key, |entries| - 1);
      Some(entries[|entries| - 1].1)
    else
      var init := entries[..|entries| - 1];
      var v := Lookup(init, key);
      assert forall i :: 0 <= i < |init| ==> init[i] == entries[i];
      if v.Some? then
        var i :| 0 <= i < |init| && init[i] == (key, v.value) && LastWith(init, key, i);
        assert LastWith(entries, key, i);
        v
      else v
  }

  /** Entry `i` is the last one whose key is `key`. */
  predicate LastWith(entries: seq<(string, Yaml)>, key: string, i: int)
  {
    forall j :: 0 <= j < |entries| && i < j ==> entries[j].0 != key
  }

  /** The dict entries of a list, in order (`if isinstance(col, dict)`). */
  function Dicts(items: seq<Yaml>): (ds: seq<Yaml>)
    ensures forall d :: d in ds <==> d in items && d.Mapping?
    ensures |ds| <= |items|
  {
    if items == [] then []
    else if items[0].Mapping? then [items[0]] + Dicts(items[1..])
    else Dicts(items[1..])
  }

  /** Every dict of the list is kept as often as it occurs, and nothing else is; so the
      schema's column count is the number of dict entries in `columns`. */
  lemma {:induction false} DictsCount(items: seq<Yaml>, d: Yaml)
    ensures multiset(Dicts(items))[d] == if d.Mapping? then multiset(items)[d] else 0
  {
    if items != [] {
      assert items == [items[0]] + items[1..];
      DictsCount(items[1..], d);
    }
  }

  /** Filtering a concatenation filters each part and keeps them in order; with
      DictsSingle this fixes the order of the dicts. */
  lemma {:induction false} DictsDistributes(a: seq<Yaml>, b: seq<Yaml>)
    ensures Dicts(a + b) == Dicts(a) + Dicts(b)
  {
    if a == [] {
      assert a + b == b;
    } else {
      var head := if a[0].Mapping? then [a[0]] else [];
      assert a + b == [a[0]] + (a[1..] + b);
      assert a == [a[0]] + a[1..];
      DictsCons(a[0], a[1..] + b);
      DictsCons(a[0], a[1..]);
      DictsDistributes(a[1..], b);
      calc {
        Dicts(a + b);
        head + Dicts(a[1..] + b);
        head + (Dicts(a[1..]) + Dicts(b));
        (head + Dicts(a[1..])) + Dicts(b);
        Dicts(a) + Dicts(b);
      }
    }
  }

  /** A single item is kept iff it is a dict. */
  lemma DictsSingle(x: Yaml)
    ensures Dicts([x]) == if x.Mapping? then [x] else []
  {
    DictsCons(x, []);
    assert [x] + [] == [x];
  }

  lemma DictsCons(x: Yaml, rest: seq<Yaml>)
    ensures Dicts([x] + rest) == (if x.Mapping? then [x] else []) + Dicts(rest)
  {
    assert ([x] + rest)[0] == x && ([x] + rest)[1..] == rest;
  }

  /** `[list(col.keys())[0] for col in items if isinstance(col, dict)]`, which raises
      at the first empty dict. */
  function FirstKeys(items: seq<Yaml>): (r: Result<seq<string>, ValidationError>)
    ensures r.Ok? <==> forall d :: d in Dicts(items) ==> d.entries != []
    ensures r.Err? ==> r.error == EmptyColumnEntry
    ensures r.Ok? ==> |r.value| == |Dicts(items)|
    ensures r.Ok? ==> forall k :: 0 <= k < |r.value| ==> r.value[k] == Dicts(items)[k].entries[0].0
  {
    if items == [] then Ok([])
    else
      var rest := FirstKeys(items[1..]);
      match items[0]
      case Mapping(es) =>
        if es == [] then Err(EmptyColumnEntry)
        else if rest.Err? then rest
        else Ok([es[0].0] + rest.value)
      case _ => rest
  }

  /** Iterating over `schema['columns']` and keeping the first key of each dict. A dict
      yields its keys and a string its characters, so neither contributes a column. */
  function ColumnsOf(v: Yaml): (r: Result<seq<string>, ValidationError>)
    ensures v.List? ==> r == FirstKeys(v.items)
    ensures v.Mapping? || v.Str? ==> r == Ok([])
    ensures v.Scalar? || v.Null? ==> r == Err(ColumnsNotIterable)
  {
    match v
    case List(items) => FirstKeys(items)
    case Mapping(_) => Ok([])
    case Str(_) => Ok([])
    case Scalar => Err(ColumnsNotIterable)
    case Null => Err(ColumnsNotIterable)
  }

  /** `schema_columns` in `validate_number_of_columns`: empty unless the schema is a dict
      with a `columns` key. */
  function SchemaColumns(schema: Yaml): (r: Result<seq<string>, ValidationError>)
    ensures !(schema.Mapping? && HasKey(schema.entries, "columns")) ==> r == Ok([])
    ensures schema.Mapping? && HasKey(schema.entries, "columns") ==>
              r == ColumnsOf(Lookup(schema.entries, "columns").value)
  {
    if schema.Mapping? then
      match Lookup(schema.entries, "columns")
      case None => Ok([])
      case Some(v) => ColumnsOf(v)
    else Ok([])
  }

  /** `validate_number_of_columns`: the frame has exactly as many columns as the schema lists. */
  function ValidateNumberOfColumns(schema: Yaml, frameColumns: seq<string>): (r: Result<bool, ValidationError>)
    ensures r.Ok? <==> SchemaColumns(schema).Ok?
    ensures r.Ok? ==> (r.value <==> |frameColumns| == |SchemaColumns(schema).value|)
    ensures r.Err? ==> r.error == SchemaColumns(schema).error
  {
    match SchemaColumns(schema)
    case Ok(expected) => Ok(|frameColumns| == |expected|)
    case Err(e) => Err(e)
  }

  /** A schema that is not a dict, or has no `columns` key, expects zero columns. */
  lemma NoColumnsKeyExpectsNone(schema: Yaml, frameColumns: seq<string>)
    requires !schema.Mapping? || !HasKey(schema.entries, "columns")
    ensures ValidateNumberOfColumns(schema, frameColumns) == Ok(|frameColumns| == 0)
  {
  }

  // ---------------------------------------------------------------------------
  // Drift
  // ---------------------------------------------------------------------------

  datatype DriftEntry = DriftEntry(pValue: real, driftStatus: bool)

  /** The returned status (true when no drift was found) and the report written to YAML. */
  datatype Drift = Drift(status: bool, report: map<string, DriftEntry>)

  /** `detect_dataset_drift`: one report entry per base column, flagged iff its p-value
      is below the threshold; the status is true iff nothing is flagged. */
  function DetectDatasetDrift(baseColumns: seq<string>, currentColumns: set<string>,
                              pValue: string -> real, threshold: real): (r: Result<Drift, ValidationError>)
    ensures r.Err? <==> exists c :: c in baseColumns && c !in currentColumns
    ensures r.Err? ==> r.error.MissingColumn? && r.error.name in baseColumns
    ensures r.Ok? ==> r.value.report.Keys == set c | c in baseColumns
    ensures r.Ok? ==> forall c :: c in r.value.report ==>
                        r.value.report[c] == DriftEntry(pValue(c), pValue(c) < threshold)
    ensures r.Ok? ==> (r.value.status <==> forall c :: c in baseColumns ==> threshold <= pValue(c))
    decreases |baseColumns|
  {
    if baseColumns == [] then Ok(Drift(true, map[]))
    else
      var init := baseColumns[..|baseColumns| - 1];
      var column := baseColumns[|baseColumns| - 1];
      assert baseColumns == init + [column];
      match DetectDatasetDrift(init, currentColumns, pValue, threshold)
      case Err(e) => Err(e)
      case Ok(d) =>
        if column !in currentColumns then Err(MissingColumn(column))
        else
          var found := pValue(column) < threshold;
          Ok(Drift(d.status && !found, d.report[column := DriftEntry(pValue(column), found)]))
  }

  /** With no columns to compare there is no drift. */
  lemma NoColumnsNoDrift(currentColumns: set<string>, pValue: string -> real, threshold: real)
    ensures DetectDatasetDrift([], currentColumns, pValue, threshold) == Ok(Drift(true, map[]))
  {
  }

  // ---------------------------------------------------------------------------
  // initiate_data_validation
  // ---------------------------------------------------------------------------

  /** The paths of `DataValidationConfig`; the invalid paths may be unset. */
  datatype Config = Config(validTrainPath: string, validTestPath: string,
                           invalidTrainPath: Option<string>, invalidTestPath: Option<string>,
                           driftReportPath: string)

  datatype Split = Train | Test

  /** A file the run writes. */
  datatype Write = WriteFrame(split: Split, path: string) | WriteReport(path: string, report: map<string, DriftEntry>)

  datatype Artifact = Artifact(validationStatus: bool,
                               validTrainFilePath: Option<string>, validTestFilePath: Option<string>,
                               invalidTrainFilePath: Option<string>, invalidTestFilePath: Option<string>,
                               driftReportFilePath: string)

  /** The files a run wrote and what it returned or raised. */
  datatype Run = Run(writes: seq<Write>, outcome: Result<Artifact, ValidationError>)

  /** Python truthiness of an optional path: set and non-empty. */
  predicate Truthy(path: Option<string>)
  {
    path.Some? && path.value != ""
  }

  /** Where one frame is saved: its valid path when valid, its invalid path when that is truthy. */
  function SaveFrame(split: Split, valid: bool, validPath: string, invalidPath: Option<string>): (w: seq<Write>)
    ensures valid ==> w == [WriteFrame(split, validPath)]
    ensures !valid && Truthy(invalidPath) ==> w == [WriteFrame(split, invalidPath.value)]
    ensures !valid && !Truthy(invalidPath) ==> w == []
  {
    if valid then [WriteFrame(split, validPath)]
    else if Truthy(invalidPath) then [WriteFrame(split, invalidPath.value)]
    else []
  }

  /** `initiate_data_validation` on frames with the given column labels. */
  function InitiateDataValidation(schema: Yaml, trainColumns: seq<string>, testColumns: seq<string>,
                                  config: Config, pValue: string -> real): (run: Run)
    ensures SchemaColumns(schema).Err? ==> run == Run([], Err(SchemaColumns(schema).error))
  {
    match ValidateNumberOfColumns(schema, trainColumns)
    case Err(e) => Run([], Err(e))
    case Ok(trainValid) =>
      match ValidateNumberOfColumns(schema, testColumns)
      case Err(e) => Run([], Err(e))
      case Ok(testValid) =>
        var saved := SaveFrame(Train, trainValid, config.validTrainPath, config.invalidTrainPath)
                   + SaveFrame(Test, testValid, config.validTestPath, config.invalidTestPath);
        var artifact := Artifact(false,
                                 if trainValid then Some(config.validTrainPath) else None,
                                 if testValid then Some(config.validTestPath) else None,
                                 if !trainValid then config.invalidTrainPath else None,
                                 if !testValid then config.invalidTestPath else None,
                                 config.driftReportPath);
        if trainValid && testValid then
          match DetectDatasetDrift(trainColumns, (set c | c in testColumns), pValue, DefaultThreshold)
          case Err(e) => Run(saved, Err(e))
          case Ok(d) =>
            Run(saved + [WriteReport(config.driftReportPath, d.report)],
                Ok(artifact.(validationStatus := d.status)))
        else Run(saved, Ok(artifact))
  }

  /** Whether a frame with these columns passes the column check (the schema having been read). */
  predicate ValidFrame(schema: Yaml, columns: seq<string>)
    requires SchemaColumns(schema).Ok?
  {
    |columns| == |SchemaColumns(schema).value|
  }

  /** The decision table: drift is computed only when both frames are valid, otherwise the
      status is False; the drift report is written at most once, last, and only when drift
      detection did not raise; each frame's artifact field is its valid path when it is
      valid and the configured invalid path otherwise, so at most one of the two is set. */
  lemma DecisionTable(schema: Yaml, trainColumns: seq<string>, testColumns: seq<string>,
                      config: Config, pValue: string -> real)
    requires SchemaColumns(schema).Ok?
    ensures var run := InitiateDataValidation(schema, trainColumns, testColumns, config, pValue);
            var trainValid, testValid := ValidFrame(schema, trainColumns), ValidFrame(schema, testColumns);
            && (!(trainValid && testValid) ==>
                  && run.outcome.Ok? && !run.outcome.value.validationStatus
                  && (forall w :: w in run.writes ==> w.WriteFrame?))
            && (trainValid && testValid ==>
                  var d := DetectDatasetDrift(trainColumns, (set c | c in testColumns), pValue, DefaultThreshold);
                  && (run.outcome.Ok? <==> d.Ok?)
                  && (forall k :: 0 <= k < |run.writes| - 1 ==> run.writes[k].WriteFrame?)
                  && (d.Err? ==> forall w :: w in run.writes ==> w.WriteFrame?)
                  && (d.Ok? ==> run.outcome.value.validationStatus == d.value.status
                                && run.writes[|run.writes| - 1] == WriteReport(config.driftReportPath, d.value.report)))
            && (run.outcome.Ok? ==>
                  var a := run.outcome.value;
                  && a.validTrainFilePath == (if trainValid then Some(config.validTrainPath) else None)
                  && a.validTestFilePath == (if testValid then Some(config.validTestPath) else None)
                  && a.invalidTrainFilePath == (if trainValid then None else config.invalidTrainPath)
                  && a.invalidTestFilePath == (if testValid then None else config.invalidTestPath)
                  && !(a.validTrainFilePath.Some? && a.invalidTrainFilePath.Some?)
                  && !(a.validTestFilePath.Some? && a.invalidTestFilePath.Some?)
                  && a.driftReportFilePath == config.driftReportPath)
  {
  }

  /** With both invalid paths configured, exactly one path field is set per frame. */
  lemma ExactlyOnePathPerFrame(schema: Yaml, trainColumns: seq<string>, testColumns: seq<string>,
                               config: Config, pValue: string -> real)
    requires SchemaColumns(schema).Ok?
    requires config.invalidTrainPath.Some? && config.invalidTestPath.Some?
    ensures var run := InitiateDataValidation(schema, trainColumns, testColumns, config, pValue);
            run.outcome.Ok? ==>
              var a := run.outcome.value;
              && (a.validTrainFilePath.Some? != a.invalidTrainFilePath.Some?)
              && (a.validTestFilePath.Some? != a.invalidTestFilePath.Some?)
  {
    DecisionTable(schema, trainColumns, testColumns, config, pValue);
  }

  /** Where each frame is written: to its valid path when it is valid, otherwise to its
      invalid path when that path is truthy, and nowhere else. */
  lemma FramesWrittenWhereRouted(schema: Yaml, trainColumns: seq<string>, testColumns: seq<string>,
                                 config: Config, pValue: string -> real)
    requires SchemaColumns(schema).Ok?
    ensures var run := InitiateDataValidation(schema, trainColumns, testColumns, config, pValue);
            var trainValid, testValid := ValidFrame(schema, trainColumns), ValidFrame(schema, testColumns);
            && (forall p :: WriteFrame(Train, p) in run.writes <==>
                  if trainValid then p == config.validTrainPath
                  else Truthy(config.invalidTrainPath) && p == config.invalidTrainPath.value)
            && (forall p :: WriteFrame(Test, p) in run.writes <==>
                  if testValid then p == config.validTestPath
                  else Truthy(config.invalidTestPath) && p == config.invalidTestPath.value)
  {
  }
}

=== FILE: file_upload.dfy ===
/** The upload widget (`Client/components/file-upload.tsx`): it holds at most
    one CSV file chosen by drag-and-drop or by the file picker, and posts it to
    the prediction endpoint. The response is abstract: an ok response with its
    body text, a non-ok status, or a transport failure (`fetch` rejects). */
module FileUpload {
  import opened Wrappers
  import opened SessionStore

  const CsvMediaType := "text/csv"
  const InvalidFileMessage := "Please upload a valid CSV file"
  const BackendFailureMessage := "Failed to analyze file. Please check your backend connection."
  const ResultsPath := "/results"

  /** The fields of a browser `File` the widget looks at. */
  datatype File = File(name: string, size: nat, mediaType: string)

  /** The widget's React state. */
  datatype UploadState = UploadState(file: Option<File>, error: Option<string>, isUploading: bool, dragActive: bool)

  /** What the widget touches outside itself: the session store and the router. The
      storage area has a quota: `setItem` throws when the store with the new entry
      would not fit, and how much fits is the browser's choice, given as `fits`. */
  datatype Browser = Browser(session: Store, navigatedTo: Option<string>, fits: Store -> bool)

  datatype DragEventType = DragEnter | DragOver | DragLeave

  datatype PredictResponse = OkResponse(body: string) | NotOkResponse(status: int) | TransportFailure

  const InitialUpload := UploadState(None, None, false, false)

  /** A candidate is accepted iff it exists and its media type is exactly `text/csv`. */
  predicate Acceptable(candidate: Option<File>)
  {
    candidate.Some? && candidate.value.mediaType == CsvMediaType
  }

  /** The validation both `handleDrop` and `handleFileChange` apply to the first chosen file. */
  function Select(s: UploadState, candidate: Option<File>): (s': UploadState)
    ensures Acceptable(candidate) ==> s'.file == candidate && s'.error == None
    ensures !Acceptable(candidate) ==> s'.file == s.file && s'.error == Some(InvalidFileMessage)
    ensures s'.isUploading == s.isUploading && s'.dragActive == s.dragActive
  {
    if Acceptable(candidate) then s.(file := candidate, error := None)
    else s.(error := Some(InvalidFileMessage))
  }

  /** `files[0]` of a file list: absent when the list is empty. */
  function First(files: seq<File>): Option<File>
  {
    if |files| > 0 then Some(files[0]) else None
  }

  /** `handleDrag`: entering or hovering lights the drop zone, leaving turns it off. */
  function HandleDrag(s: UploadState, event: DragEventType): (s': UploadState)
    ensures s'.dragActive <==> event != DragLeave
    ensures s'.(dragActive := s.dragActive) == s
  {
    match event
    case DragEnter => s.(dragActive := true)
    case DragOver => s.(dragActive := true)
    case DragLeave => s.(dragActive := false)
  }

  /** `handleDrop`: the drop zone always turns off; the first dropped file is validated. */
  function HandleDrop(s: UploadState, dropped: seq<File>): (s': UploadState)
    ensures !s'.dragActive
    ensures Acceptable(First(dropped)) ==> s'.file == Some(dropped[0]) && s'.error == None
    ensures !Acceptable(First(dropped)) ==> s'.file == s.file && s'.error == Some(InvalidFileMessage)
    ensures s'.isUploading == s.isUploading
  {
    Select(s.(dragActive := false), First(dropped))
  }

  /** `handleFileChange`: `e.target.files` may be `null`; the first picked file is validated. */
  function HandleFileChange(s: UploadState, picked: Option<seq<File>>): (s': UploadState)
    ensures var candidate := if picked.Some? then First(picked.value) else None;
            && (Acceptable(candidate) ==> s'.file == candidate && s'.error == None)
            && (!Acceptable(candidate) ==> s'.file == s.file && s'.error == Some(InvalidFileMessage))
    ensures s'.isUploading == s.isUploading && s'.dragActive == s.dragActive
  {
    match picked
    case None => Select(s, None)
    case Some(files) => Select(s, First(files))
  }

  /** Dropping a list of files and picking the same list leave the same file and error. */
  lemma DropAndPickAgree(s: UploadState, files: seq<File>)
    ensures HandleDrop(s, files) == HandleFileChange(s, Some(files)).(dragActive := false)
  {
  }

  /** `disabled={!file || isUploading}` on the "Start Analysis" button. */
  predicate UploadEnabled(s: UploadState)
  {
    s.file.Some? && !s.isUploading
  }

  /** The synchronous start of `handleUpload`, up to the `await fetch`. */
  function BeginUpload(s: UploadState): (s': UploadState)
    requires s.file.Some?
    ensures s'.isUploading && s'.error == None && !UploadEnabled(s')
    ensures s'.file == s.file && s'.dragActive == s.dragActive
  {
    s.(isUploading := true, error := None)
  }

  /** The request succeeded and the storage area has room for its body, so `setItem`
      does not throw. */
  predicate Delivered(b: Browser, response: PredictResponse)
  {
    response.OkResponse? && b.fits(SetItem(b.session, AnalysisResultsKey, response.body))
  }

  /** The rest of `handleUpload` once the request settles. A non-ok status, a failed
      `fetch` and a `setItem` that exceeds the quota all land in the same `catch`. */
  function CompleteUpload(s: UploadState, b: Browser, response: PredictResponse): (r: (UploadState, Browser))
    ensures !r.0.isUploading && r.0.file == s.file && r.0.dragActive == s.dragActive
    ensures Delivered(b, response) ==>
              && GetItem(r.1.session, AnalysisResultsKey) == Some(response.body)
              && (forall k :: k != AnalysisResultsKey ==> GetItem(r.1.session, k) == GetItem(b.session, k))
              && r.1.navigatedTo == Some(ResultsPath)
              && r.0.error == s.error
    ensures !Delivered(b, response) ==> r.1 == b && r.0.error == Some(BackendFailureMessage)
  {
    match response
    case OkResponse(body) =>
      var stored := SetItem(b.session, AnalysisResultsKey, body);
      if b.fits(stored) then (s.(isUploading := false), b.(session := stored, navigatedTo := Some(ResultsPath)))
      else (s.(isUploading := false, error := Some(BackendFailureMessage)), b)
    case _ =>
      (s.(isUploading := false, error := Some(BackendFailureMessage)), b)
  }

  /** `handleUpload` as one step: without a file nothing happens; otherwise the
      upload starts and settles with `response`. */
  function HandleUpload(s: UploadState, b: Browser, response: PredictResponse): (r: (UploadState, Browser))
    ensures s.file.None? ==> r == (s, b)
    ensures s.file.Some? ==> !r.0.isUploading && r.0.file == s.file && r.0.dragActive == s.dragActive
    ensures s.file.Some? && Delivered(b, response) ==>
              && GetItem(r.1.session, AnalysisResultsKey) == Some(response.body)
              && (forall k :: k != AnalysisResultsKey ==> GetItem(r.1.session, k) == GetItem(b.session, k))
              && r.1.navigatedTo == Some(ResultsPath)
              && r.0.error == None
    ensures s.file.Some? && !Delivered(b, response) ==>
              r.1 == b && r.0.error == Some(BackendFailureMessage)
  {
    if s.file.None? then (s, b)
    else CompleteUpload(BeginUpload(s), b, response)
  }

  /** After any upload that had a file, the button is enabled again: the file is kept. */
  lemma UploadLeavesButtonEnabled(s: UploadState, b: Browser, response: PredictResponse)
    requires s.file.Some?
    ensures UploadEnabled(HandleUpload(s, b, response).0)
  {
  }
}

=== FILE: pipeline.dfy ===
/** How the pieces meet: the upload view hands the prediction endpoint's response
    to the results view through session storage, and the results view buckets the
    rows the prediction endpoint rendered. The page template that wraps the table
    is not part of this model; the lemmas assume it passes the table through. */
module Pipeline {
  import opened Wrappers
  import opened Strings
  import opened SessionStore
  import opened Results
  import opened FileUpload
  import opened Prediction

  /** An ok upload whose body fits in session storage stores exactly that body and opens
      the results view, which reads that very text back: a non-empty body is parsed and
      summarised, while an empty body sends the user straight back home. */
  lemma UploadHandsReportToResults(s: UploadState, b: Browser, body: string, parse: string -> Option<Table>)
    requires s.file.Some? && Delivered(b, OkResponse(body))
    ensures var after := HandleUpload(s, b, OkResponse(body)).1;
            var page := LoadResults(after.session, parse);
            && after.navigatedTo == Some(ResultsPath)
            && GetItem(after.session, AnalysisResultsKey) == Some(body)
            && (body == "" ==> page.navigatedTo == Some(HomePath) && page.data == None)
            && (body != "" ==> !page.loading && (page.data.Some? <==> parse(body).Some?))
            && (body != "" && parse(body).Some? ==> page.data.value.total == |parse(body).value.bodyRows|)
  {
  }

  /** A failed upload, including one whose report exceeds the storage quota, leaves the
      slot alone: whatever report an earlier upload stored is still there, and there is
      no navigation. */
  lemma FailedUploadKeepsStoredReport(s: UploadState, b: Browser, response: PredictResponse)
    requires s.file.Some? && !Delivered(b, response)
    ensures var after := HandleUpload(s, b, response).1;
            after.session == b.session && after.navigatedTo == b.navigatedTo
  {
  }

  // Which capital letters the three explanation texts lack. Each text is restated in
  // short pieces only because the prover checks short literals character by character
  // far more cheaply than one long literal.

  lemma NormalTextLacksL()
    ensures 'L' !in NormalText
  {
    assert NormalText == "Normal network" + " activity" + " - no action" + " needed";
  }

  lemma NormalTextLacksS()
    ensures 'S' !in NormalText
  {
    assert NormalText == "Normal network" + " activity" + " - no action" + " needed";
  }

  lemma SuspiciousTextLacksL()
    ensures 'L' !in SuspiciousText
  {
    assert SuspiciousText == "Suspicious" + " activity" + " - monitor" + " closely";
  }

  lemma HighRiskTextLacksL()
    ensures 'L' !in HighRiskText
  {
    assert HighRiskText == "High risk" + " threat" + " - immediate" + " action required";
  }

  lemma HighRiskTextLacksS()
    ensures 'S' !in HighRiskText
  {
    assert HighRiskText == "High risk" + " threat" + " - immediate" + " action required";
  }

  lemma NormalTextWords()
    ensures !Contains(NormalText, LegitimateWord) && !Contains(NormalText, SuspiciousWord)
  {
    NormalTextLacksL();
    NormalTextLacksS();
    NotContainsWithoutHead(NormalText, LegitimateWord);
    NotContainsWithoutHead(NormalText, SuspiciousWord);
  }

  lemma SuspiciousTextWords()
    ensures !Contains(SuspiciousText, LegitimateWord) && Contains(SuspiciousText, SuspiciousWord)
  {
    SuspiciousTextLacksL();
    NotContainsWithoutHead(SuspiciousText, LegitimateWord);
    SuspiciousTextStartsWithWord();
  }

  lemma SuspiciousTextStartsWithWord()
    ensures Contains(SuspiciousText, SuspiciousWord)
  {
    var rest := " activity - monitor closely";
    assert SuspiciousText == SuspiciousWord + rest;
    assert (SuspiciousWord + rest)[..|SuspiciousWord|] == SuspiciousWord;
  }

  lemma HighRiskTextWords()
    ensures !Contains(HighRiskText, LegitimateWord) && !Contains(HighRiskText, SuspiciousWord)
  {
    HighRiskTextLacksL();
    HighRiskTextLacksS();
    NotContainsWithoutHead(HighRiskText, LegitimateWord);
    NotContainsWithoutHead(HighRiskText, SuspiciousWord);
  }

  /** Only the prediction-1 explanation mentions "Suspicious"; none mentions "Legitimate". */
  lemma ExplanationWords(level: real)
    ensures !Contains(Explain(level), LegitimateWord)
    ensures Contains(Explain(level), SuspiciousWord) <==> level == 1.0
  {
    NormalTextWords();
    SuspiciousTextWords();
    HighRiskTextWords();
  }

  /** A row whose last cell is an explanation is Suspicious iff the prediction was 1,
      and never Legitimate: no explanation mentions "Legitimate". */
  lemma ExplanationBucket(row: Row, level: real)
    requires |row| > 0 && row[|row| - 1] == Explain(level)
    ensures Classify(row) == if level == 1.0 then Suspicious else Unknown
  {
    ExplanationWords(level);
  }

  /** Two equally long sequences that agree position by position on "is x" / "is y"
      hold equally many x and y. */
  lemma {:induction false} SameCount<A, B>(a: seq<A>, b: seq<B>, x: A, y: B)
    requires |a| == |b|
    requires forall i :: 0 <= i < |a| ==> (a[i] == x <==> b[i] == y)
    ensures multiset(a)[x] == multiset(b)[y]
    decreases |a|
  {
    if a != [] {
      var n := |a| - 1;
      assert a == a[..n] + [a[n]] && b == b[..n] + [b[n]];
      SameCount(a[..n], b[..n], x, y);
    }
  }

  /** Rows whose last cells explain `levels`, one per row, are never Legitimate and are
      Suspicious exactly as often as a level is 1. */
  lemma ExplainedRowsCounts(rows: seq<Row>, levels: seq<real>)
    requires |rows| == |levels|
    requires forall i :: 0 <= i < |rows| ==> |rows[i]| > 0 && rows[i][|rows[i]| - 1] == Explain(levels[i])
    ensures Tally(rows) == Counts(0, multiset(levels)[1.0])
  {
    var bs := Buckets(rows);
    forall i | 0 <= i < |rows|
      ensures bs[i] == (if levels[i] == 1.0 then Suspicious else Unknown)
    {
      ExplanationBucket(rows[i], levels[i]);
    }
    assert Legitimate !in bs;
    SameCount(bs, levels, Suspicious, 1.0);
  }

  /** What the results view makes of this server's table: nothing is ever counted as
      legitimate, and the suspicious count is the number of predictions equal to 1;
      high-risk rows (any other non-zero level) land in neither bucket. */
  lemma ServerTableCounts(input: Frame, levels: seq<real>, show: real -> string)
    requires Rectangular(input) && |levels| == |input.rows| > 0
    requires ExplanationColumn !in input.columns
    ensures var rows := PredictRoute(input, levels, show).value.rows;
            Tally(rows) == Counts(0, multiset(levels)[1.0])
  {
    ExplanationIsLastColumn(input, levels, show);
    ExplainedRowsCounts(PredictRoute(input, levels, show).value.rows, levels);
  }

  /** End to end: a CSV with data rows uploaded, classified by the server and shown by the results view.
      If the page hands the table through unchanged, the view reports every row, zero
      legitimate rows, and "All URLs classified as legitimate" whenever no prediction
      is exactly 1, even when every row is a high-risk threat. */
  lemma EndToEnd(s: UploadState, b: Browser, input: Frame, levels: seq<real>, show: real -> string,
                 body: string, outerHtml: string, parse: string -> Option<Table>)
    requires s.file.Some? && body != "" && Delivered(b, OkResponse(body))
    requires Rectangular(input) && |levels| == |input.rows| > 0
    requires ExplanationColumn !in input.columns
    requires parse(body) == Some(Table(outerHtml, PredictRoute(input, levels, show).value.rows))
    ensures var after := HandleUpload(s, b, OkResponse(body)).1;
            var view := Render(LoadResults(after.session, parse));
            && view.Summary?
            && view.total == |levels|
            && view.legitimate == 0
            && view.suspicious == multiset(levels)[1.0]
            && (view.headline == AllLegitimate <==> 1.0 !in levels)
  {
    ServerTableCounts(input, levels, show);
    UploadHandsReportToResults(s, b, body, parse);
  }

  /** A CSV without data rows never reaches the results view: the route raises on
      `df.iloc[0]`, so the widget gets no ok response (a non-ok status, or a rejected
      `fetch`) and shows the backend error while session storage and the route stay
      as they were. */
  lemma EmptyUploadShowsBackendError(s: UploadState, b: Browser, input: Frame, levels: seq<real>,
                                     show: real -> string, response: PredictResponse)
    requires s.file.Some? && Rectangular(input) && input.rows == []
    requires !response.OkResponse?
    ensures PredictRoute(input, levels, show) == Err(NoRows)
    ensures var after := HandleUpload(s, b, response);
            after.0.error == Some(BackendFailureMessage) && after.1 == b
  {
  }
}

=== FILE: prediction.dfy ===
/** The per-prediction explanation column that `predict_route` in `app.py`
    appends to the uploaded frame before rendering it as an HTML table. The model
    and its predictions are external; a frame is its column labels and the text
    of its cells, and how a prediction value prints in its cell is the abstract
    `show`. */
module Prediction {
  import opened Wrappers

  const PredictedColumn := "predicted_column"
  const ExplanationColumn := "threat_explanation"

  const NormalText := "Normal network activity - no action needed"
  const SuspiciousText := "Suspicious activity - monitor closely"
  const HighRiskText := "High risk threat - immediate action required"

  /** The explanation for one predicted threat level: 0 is normal, 1 is suspicious,
      anything else is a high risk. */
  function Explain(level: real): (text: string)
    ensures text == NormalText <==> level == 0.0
    ensures text == SuspiciousText <==> level == 1.0
    ensures text == HighRiskText <==> level != 0.0 && level != 1.0
  {
    if level == 0.0 then NormalText
    else if level == 1.0 then SuspiciousText
    else HighRiskText
  }

  /** The `threat_explanations` loop: one explanation per prediction, in order. */
  function Explanations(levels: seq<real>): (texts: seq<string>)
    ensures |texts| == |levels|
    ensures forall i :: 0 <= i < |levels| ==> texts[i] == Explain(levels[i])
  {
    if levels == [] then []
    else Explanations(levels[..|levels| - 1]) + [Explain(levels[|levels| - 1])]
  }

  /** A data frame: column labels and rows of cell texts. */
  datatype Frame = Frame(columns: seq<string>, rows: seq<seq<string>>)

  /** Every row has one cell per column. */
  predicate Rectangular(f: Frame)
  {
    forall i :: 0 <= i < |f.rows| ==> |f.rows[i]| == |f.columns|
  }

  /** Position of the first column labelled `name`. */
  function IndexOf(columns: seq<string>, name: string): (j: nat)
    requires name in columns
    ensures j < |columns| && columns[j] == name
    ensures forall k :: 0 <= k < j ==> columns[k] != name
  {
    if columns[0] == name then 0 else 1 + IndexOf(columns[1..], name)
  }

  /** `df[name]` for a label that is present: the cells of its first column. */
  function Column(f: Frame, name: string): (cells: seq<string>)
    requires Rectangular(f) && name in f.columns
    ensures |cells| == |f.rows|
  {
    var j := IndexOf(f.columns, name);
    seq(|f.rows|, i requires 0 <= i < |f.rows| => f.rows[i][j])
  }

  /** `df[name] = values`: a new label is appended as the last column; an existing
      label is overwritten in place, at every column that carries it. */
  function SetColumn(f: Frame, name: string, values: seq<string>): (g: Frame)
    requires Rectangular(f) && |values| == |f.rows|
    ensures Rectangular(g) && |g.rows| == |f.rows| && name in g.columns
    ensures name !in f.columns ==> g.columns == f.columns + [name]
    ensures name in f.columns ==> g.columns == f.columns
  {
    if name !in f.columns then
      Frame(f.columns + [name], seq(|f.rows|, i requires 0 <= i < |f.rows| => f.rows[i] + [values[i]]))
    else
      Frame(f.columns, seq(|f.rows|, i requires 0 <= i < |f.rows| =>
        seq(|f.columns|, j requires 0 <= j < |f.columns| => if f.columns[j] == name then values[i] else f.rows[i][j])))
  }

  /** Reading a column back after assigning it gives the assigned values, and every
      other column keeps its cells. */
  lemma SetThenGet(f: Frame, name: string, values: seq<string>, other: string)
    requires Rectangular(f) && |values| == |f.rows|
    ensures Column(SetColumn(f, name, values), name) == values
    ensures other != name && other in f.columns ==>
              Column(SetColumn(f, name, values), other) == Column(f, other)
  {
    var g := SetColumn(f, name, values);
    if name !in f.columns {
      assert IndexOf(g.columns, name) == |f.columns|;
      if other != name && other in f.columns {
        IndexOfPrefix(f.columns, [name], other);
      }
    }
  }

  lemma {:induction false} IndexOfPrefix(a: seq<string>, b: seq<string>, name: string)
    requires name in a
    ensures IndexOf(a + b, name) == IndexOf(a, name)
  {
    if a[0] != name {
      assert (a + b)[1..] == a[1..] + b;
      IndexOfPrefix(a[1..], b, name);
    }
  }

  /** Why the route raises: `df.iloc[0]` on an upload without rows, or a prediction
      column whose length differs from the frame's. */
  datatype PredictError = NoRows | LengthMismatch

  /** The frame `predict_route` renders: the uploaded frame with `predicted_column` and
      then `threat_explanation` assigned. The first row is printed before predicting,
      so an upload without rows raises; so does assigning a column whose length differs
      from the frame's. The route reports either as an error. */
  function PredictRoute(input: Frame, levels: seq<real>, show: real -> string): (r: Result<Frame, PredictError>)
    requires Rectangular(input)
    ensures r.Err? <==> |input.rows| == 0 || |levels| != |input.rows|
    ensures r == Err(NoRows) <==> |input.rows| == 0
    ensures r.Ok? ==> Rectangular(r.value) && |r.value.rows| == |input.rows| && ExplanationColumn in r.value.columns
    ensures r.Ok? ==> Column(r.value, ExplanationColumn) == Explanations(levels)
    ensures r.Ok? ==> PredictedColumn in r.value.columns
                      && Column(r.value, PredictedColumn) == seq(|levels|, i requires 0 <= i < |levels| => show(levels[i]))
    ensures r.Ok? ==> forall c :: c in input.columns && c != PredictedColumn && c != ExplanationColumn ==>
                        c in r.value.columns && Column(r.value, c) == Column(input, c)
  {
    if |input.rows| == 0 then Err(NoRows)
    else if |levels| != |input.rows| then Err(LengthMismatch)
    else
      var shown := seq(|levels|, i requires 0 <= i < |levels| => show(levels[i]));
      var withPrediction := SetColumn(input, PredictedColumn, shown);
      var explained := SetColumn(withPrediction, ExplanationColumn, Explanations(levels));
      SetThenGet(input, PredictedColumn, shown, PredictedColumn);
      SetThenGet(withPrediction, ExplanationColumn, Explanations(levels), PredictedColumn);
      assert forall c :: c in input.columns && c != PredictedColumn && c != ExplanationColumn ==>
               Column(explained, c) == Column(input, c) by {
        forall c | c in input.columns && c != PredictedColumn && c != ExplanationColumn
          ensures Column(explained, c) == Column(input, c)
        {
          SetThenGet(input, PredictedColumn, shown, c);
          SetThenGet(withPrediction, ExplanationColumn, Explanations(levels), c);
        }
      }
      Ok(explained)
  }

  /** Unless the upload already has a `threat_explanation` column, the explanation is the
      last column, right after `predicted_column` when that one was new too; the cell in
      that last column of row `i` explains prediction `i`. */
  lemma ExplanationIsLastColumn(input: Frame, levels: seq<real>, show: real -> string)
    requires Rectangular(input) && |levels| == |input.rows| > 0
    requires ExplanationColumn !in input.columns
    ensures var f := PredictRoute(input, levels, show).value;
            && f.columns == input.columns + (if PredictedColumn in input.columns then [] else [PredictedColumn])
                                          + [ExplanationColumn]
            && forall i :: 0 <= i < |f.rows| ==> |f.rows[i]| > 0 && f.rows[i][|f.rows[i]| - 1] == Explain(levels[i])
  {
    var f := PredictRoute(input, levels, show).value;
    var shown := seq(|levels|, i requires 0 <= i < |levels| => show(levels[i]));
    var withPrediction := SetColumn(input, PredictedColumn, shown);
    assert f == SetColumn(withPrediction, ExplanationColumn, Explanations(levels));
    assert ExplanationColumn !in withPrediction.columns;
  }
}

=== FILE: requirements.dfy ===
/** `get_requirements` of `setup.py`: the lines of `requirements.txt`, stripped,
    without blank lines and without the `-e .` self-reference. Reading the file is
    external: `None` stands for a missing file, `Some(lines)` for what
    `readlines()` returned. */
module Requirements {
  import opened Wrappers
  import opened Strings

  /** The editable self-install line that must not become a dependency. */
  const EditableSelf := "-e ."

  /** Whether a stripped line is kept as a requirement. */
  predicate Kept(requirement: string)
  {
    requirement != "" && requirement != EditableSelf
  }

  /** Reference definition: the kept stripped lines, in input order. */
  function Filtered(lines: seq<string>): seq<string>
  {
    if lines == [] then []
    else
      var last := Strip(lines[|lines| - 1]);
      Filtered(lines[..|lines| - 1]) + (if Kept(last) then [last] else [])
  }

  /** The filter works line by line: filtering two blocks of lines is filtering each
      block and concatenating, so order is kept and nothing else is dropped. */
  lemma {:induction false} FilteredDistributes(a: seq<string>, b: seq<string>)
    ensures Filtered(a + b) == Filtered(a) + Filtered(b)
    decreases |b|
  {
    if b == [] {
      assert a + b == a;
    } else {
      var init := b[..|b| - 1];
      assert (a + b)[..|a + b| - 1] == a + init;
      assert (a + b)[|a + b| - 1] == b[|b| - 1];
      FilteredDistributes(a, init);
    }
  }

  /** A single line survives, stripped, iff its stripped form is kept. */
  lemma FilteredSingleLine(line: string)
    ensures Filtered([line]) == if Kept(Strip(line)) then [Strip(line)] else []
  {
    assert [line][..0] == [];
  }

  /** Every requirement is a whitespace-stripped, non-blank line other than `-e .`. */
  lemma {:induction false} FilteredAreStrippedAndKept(lines: seq<string>)
    ensures forall r :: r in Filtered(lines) ==> Kept(r) && Strip(r) == r && Trimmed(r)
    ensures forall r :: r in Filtered(lines) ==> exists l :: l in lines && Strip(l) == r
    decreases |lines|
  {
    if lines != [] {
      var init := lines[..|lines| - 1];
      var last := lines[|lines| - 1];
      FilteredAreStrippedAndKept(init);
      StripIdempotent(last);
      assert forall l :: l in init ==> l in lines;
    }
  }

  /** `get_requirements()`. */
  method GetRequirements(file: Option<seq<string>>) returns (requirements: seq<string>)
    ensures file.None? ==> requirements == []
    ensures file.Some? ==> requirements == Filtered(file.value)
  {
    requirements := [];
    if file.Some? {
      var lines := file.value;
      var i := 0;
      while i < |lines|
        invariant 0 <= i <= |lines|
        invariant requirements == Filtered(lines[..i])
      {
        var requirement := Strip(lines[i]);
        assert lines[..i + 1][..i] == lines[..i];
        if Kept(requirement) {
          requirements := requirements + [requirement];
        }
        i := i + 1;
      }
      assert lines[..|lines|] == lines;
    }
  }
}

=== FILE: results.dfy ===
/** The results view (`Client/app/results/page.tsx`): on load it reads the raw
    report left in session storage, finds the report's table, buckets every body
    row by the text of its last cell, and shows a summary; it also offers a CSV
    export. DOM parsing is external: `parse` stands for `DOMParser` followed by
    `querySelector("table")` and `querySelectorAll("tbody tr")`. */
module Results {
  import opened Wrappers
  import opened Strings
  import opened SessionStore

  /** Where the view sends the user when there is nothing to show. */
  const HomePath := "/"
  const LegitimateWord := "Legitimate"
  const SuspiciousWord := "Suspicious"

  /** The text content of the `td` cells of one `tbody` row, left to right. */
  type Row = seq<string>

  /** The first table of the report: its markup and its body rows. */
  datatype Table = Table(outerHtml: string, bodyRows: seq<Row>)

  datatype Bucket = Legitimate | Suspicious | Unknown

  /** What the view keeps once a table was found. */
  datatype AnalysisData = AnalysisData(total: nat, legitimate: nat, suspicious: nat, tableHtml: string)

  /** The view's React state plus the navigation it requested. */
  datatype PageState = PageState(data: Option<AnalysisData>, loading: bool, navigatedTo: Option<string>)

  const InitialPage := PageState(None, true, None)

  // ---------------------------------------------------------------------------
  // Classification and counting
  // ---------------------------------------------------------------------------

  /** A row's bucket: "Legitimate" in the last cell wins over "Suspicious";
      a row without cells, or whose last cell mentions neither, is Unknown. */
  function Classify(row: Row): (b: Bucket)
    ensures b == Legitimate <==> |row| > 0 && Occurs(row[|row| - 1], LegitimateWord)
    ensures b == Suspicious <==>
              |row| > 0 && !Occurs(row[|row| - 1], LegitimateWord) && Occurs(row[|row| - 1], SuspiciousWord)
  {
    if |row| == 0 then Unknown
    else
      var cell := row[|row| - 1];
      ContainsIffOccurs(cell, LegitimateWord);
      ContainsIffOccurs(cell, SuspiciousWord);
      if Contains(cell, LegitimateWord) then Legitimate
      else if Contains(cell, SuspiciousWord) then Suspicious
      else Unknown
  }

  /** The bucket of every row, in row order. */
  function Buckets(rows: seq<Row>): (bs: seq<Bucket>)
    ensures |bs| == |rows|
    ensures forall i :: 0 <= i < |rows| ==> bs[i] == Classify(rows[i])
  {
    seq(|rows|, i requires 0 <= i < |rows| => Classify(rows[i]))
  }

  datatype Counts = Counts(legitimate: nat, suspicious: nat)

  /** The `rows.forEach` loop: each row bumps at most one counter. */
  function Tally(rows: seq<Row>): (c: Counts)
    ensures c.legitimate == multiset(Buckets(rows))[Legitimate]
    ensures c.suspicious == multiset(Buckets(rows))[Suspicious]
    ensures c.legitimate + c.suspicious + multiset(Buckets(rows))[Unknown] == |rows|
  {
    if rows == [] then Counts(0, 0)
    else
      var init := rows[..|rows| - 1];
      var c := Tally(init);
      assert Buckets(rows) == Buckets(init) + [Classify(rows[|rows| - 1])];
      match Classify(rows[|rows| - 1])
      case Legitimate => Counts(c.legitimate + 1, c.suspicious)
      case Suspicious => Counts(c.legitimate, c.suspicious + 1)
      case Unknown => c
  }

  // ---------------------------------------------------------------------------
  // Loading
  // ---------------------------------------------------------------------------

  /** A report is usable when the slot holds a non-empty string (JavaScript truthiness). */
  predicate HasReport(store: Store)
  {
    AnalysisResultsKey in store && store[AnalysisResultsKey] != ""
  }

  /** The load effect, run once from the initial state. */
  function LoadResults(store: Store, parse: string -> Option<Table>): (p: PageState)
    ensures !HasReport(store) ==> p == PageState(None, true, Some(HomePath))
    ensures HasReport(store) ==> !p.loading && p.navigatedTo == None
    ensures HasReport(store) ==> (p.data.Some? <==> parse(store[AnalysisResultsKey]).Some?)
    ensures HasReport(store) && p.data.Some? ==>
              var t := parse(store[AnalysisResultsKey]).value;
              && p.data.value.total == |t.bodyRows|
              && p.data.value.legitimate == multiset(Buckets(t.bodyRows))[Legitimate]
              && p.data.value.suspicious == multiset(Buckets(t.bodyRows))[Suspicious]
              && p.data.value.legitimate + p.data.value.suspicious <= p.data.value.total
              && p.data.value.tableHtml == t.outerHtml
  {
    match GetItem(store, AnalysisResultsKey)
    case None => InitialPage.(navigatedTo := Some(HomePath))
    case Some(html) =>
      if html == "" then InitialPage.(navigatedTo := Some(HomePath))
      else
        match parse(html)
        case None => InitialPage.(loading := false)
        case Some(table) =>
          var c := Tally(table.bodyRows);
          var d := AnalysisData(|table.bodyRows|, c.legitimate, c.suspicious, table.outerHtml);
          PageState(Some(d), false, None)
  }

  // ---------------------------------------------------------------------------
  // Rendering
  // ---------------------------------------------------------------------------

  datatype Headline = FoundSuspicious(count: nat) | AllLegitimate

  datatype View =
    | Spinner
    | NoResults
    | Summary(total: nat, headline: Headline, legitimate: nat, suspicious: nat)

  /** The sentence under the title: "Found N suspicious URLs requiring attention"
      or "All URLs classified as legitimate". */
  function HeadlineOf(d: AnalysisData): (h: Headline)
    ensures h.FoundSuspicious? <==> d.suspicious > 0
    ensures h.FoundSuspicious? ==> h.count == d.suspicious
  {
    if d.suspicious > 0 then FoundSuspicious(d.suspicious) else AllLegitimate
  }

  /** Which of the three screens the view shows. */
  function Render(p: PageState): (v: View)
    ensures v == Spinner <==> p.loading
    ensures v == NoResults <==> !p.loading && p.data.None?
    ensures v.Summary? ==> && v.total == p.data.value.total && v.headline == HeadlineOf(p.data.value)
                           && v.legitimate == p.data.value.legitimate && v.suspicious == p.data.value.suspicious
  {
    if p.loading then Spinner
    else match p.data
      case None => NoResults
      case Some(d) => Summary(d.total, HeadlineOf(d), d.legitimate, d.suspicious)
  }

  /** Nothing stored (or an empty string): the view redirects home, keeps no data
      and stays on its spinner, since the effect returns before clearing `loading`. */
  lemma MissingReportRedirects(store: Store, parse: string -> Option<Table>)
    requires !HasReport(store)
    ensures LoadResults(store, parse).navigatedTo == Some(HomePath)
    ensures LoadResults(store, parse).data == None
    ensures Render(LoadResults(store, parse)) == Spinner
  {
  }

  /** A stored report without a table: "No results found". */
  lemma NoTableShowsNoResults(store: Store, parse: string -> Option<Table>)
    requires HasReport(store) && parse(store[AnalysisResultsKey]).None?
    ensures Render(LoadResults(store, parse)) == NoResults
    ensures LoadResults(store, parse).navigatedTo == None
  {
  }

  /** A table with no body rows still yields data: zero URLs, and the
      "All URLs classified as legitimate" headline. */
  lemma EmptyTableShowsZero(store: Store, parse: string -> Option<Table>)
    requires HasReport(store) && parse(store[AnalysisResultsKey]).Some?
    requires parse(store[AnalysisResultsKey]).value.bodyRows == []
    ensures Render(LoadResults(store, parse)) == Summary(0, AllLegitimate, 0, 0)
  {
  }

  /** If no row mentions either word, the headline still claims that all URLs are legitimate,
      although the legitimate count is zero. */
  lemma {:induction false} AllUnknownReadsLegitimate(store: Store, parse: string -> Option<Table>)
    requires HasReport(store) && parse(store[AnalysisResultsKey]).Some?
    requires forall r :: r in parse(store[AnalysisResultsKey]).value.bodyRows ==> Classify(r) == Unknown
    ensures var v := Render(LoadResults(store, parse));
            v.Summary? && v.headline == AllLegitimate && v.legitimate == 0 && v.suspicious == 0
            && v.total == |parse(store[AnalysisResultsKey]).value.bodyRows|
  {
    var rows := parse(store[AnalysisResultsKey]).value.bodyRows;
    var bs := Buckets(rows);
    assert Legitimate !in bs && Suspicious !in bs;
  }

  // ---------------------------------------------------------------------------
  // Percentages
  // ---------------------------------------------------------------------------

  /** `count / total * 100`, before `toFixed(1)` rounding; the source does not
      guard against `total == 0`, the model does. */
  function Percent(count: nat, total: nat): (p: real)
    requires total > 0
    ensures 0.0 <= p
    ensures p * (total as real) == (count as real) * 100.0
    ensures count <= total ==> p <= 100.0
  {
    (count as real) * 100.0 / (total as real)
  }

  lemma PercentAdds(a: nat, b: nat, total: nat)
    requires total > 0
    ensures Percent(a, total) + Percent(b, total) == Percent(a + b, total)
  {
    var t := total as real;
    assert (Percent(a, total) + Percent(b, total)) * t == Percent(a + b, total) * t;
  }

  lemma PercentIsHundred(count: nat, total: nat)
    requires total > 0
    ensures Percent(count, total) == 100.0 <==> count == total
  {
    var t := total as real;
    var p := Percent(count, total);
    if count == total {
      assert (p - 100.0) * t == 0.0;
    }
    if p == 100.0 {
      assert 100.0 * t == (count as real) * 100.0;
      assert t == count as real;
    }
  }

  /** Legitimate and suspicious shares of `total` rows, `unknown` of which are in neither bucket. */
  lemma SharesBound(legitimate: nat, suspicious: nat, unknown: nat, total: nat)
    requires total > 0 && legitimate + suspicious + unknown == total
    ensures Percent(legitimate, total) + Percent(suspicious, total) <= 100.0
    ensures Percent(legitimate, total) + Percent(suspicious, total) == 100.0 <==> unknown == 0
  {
    PercentAdds(legitimate, suspicious, total);
    PercentIsHundred(legitimate + suspicious, total);
  }

  /** The two displayed percentages never exceed 100 together, and reach exactly
      100 iff no row is Unknown. */
  lemma SharesOfTally(rows: seq<Row>)
    requires |rows| > 0
    ensures var c := Tally(rows);
            Percent(c.legitimate, |rows|) + Percent(c.suspicious, |rows|) <= 100.0
            && (Percent(c.legitimate, |rows|) + Percent(c.suspicious, |rows|) == 100.0
                <==> Unknown !in Buckets(rows))
  {
    var c := Tally(rows);
    var unknown := multiset(Buckets(rows))[Unknown];
    assert Unknown !in Buckets(rows) <==> unknown == 0;
    SharesBound(c.legitimate, c.suspicious, unknown, |rows|);
  }

  // ---------------------------------------------------------------------------
  // CSV export
  // ---------------------------------------------------------------------------

  const CsvHeader := "URL,Prediction,Threat Level"
  // Written in pieces only so that facts about its characters stay cheap to prove.
  const CsvPlaceholder := "Sample data would" + " be generated" + " from actual results"

  /** The download link the export button builds; `content` is what `encodeURI`
      is applied to behind `hrefPrefix`. */
  datatype CsvDownload = CsvDownload(hrefPrefix: string, content: string, filename: string)

  lemma PlaceholderIsOneLine()
    ensures '\n' !in CsvPlaceholder
  {
    assert '\n' !in "Sample data would";
    assert '\n' !in " be generated";
    assert '\n' !in " from actual results";
  }

  lemma CsvContentLines()
    ensures Split(CsvHeader + "\n" + CsvPlaceholder, '\n') == [CsvHeader, CsvPlaceholder]
  {
    PlaceholderIsOneLine();
    assert '\n' !in CsvHeader;
    var parts := [CsvHeader, CsvPlaceholder];
    assert Join(parts, '\n') == CsvHeader + "\n" + CsvPlaceholder;
    SplitJoin(parts, '\n');
  }

  lemma CsvHeaderFields()
    ensures Split(CsvHeader, ',') == ["URL", "Prediction", "Threat Level"]
  {
    var parts := ["URL", "Prediction", "Threat Level"];
    assert Join(parts, ',') == CsvHeader;
    SplitJoin(parts, ',');
  }

  /** The export takes nothing from the analysed data: one header line with three
      fields and one placeholder line, under a fixed file name. */
  function ExportCsv(): (d: CsvDownload)
    ensures d.hrefPrefix == "data:text/csv;charset=utf-8,"
    ensures Split(d.content, '\n') == [CsvHeader, CsvPlaceholder]
    ensures Split(Split(d.content, '\n')[0], ',') == ["URL", "Prediction", "Threat Level"]
    ensures d.filename == "phishing_analysis_results.csv"
  {
    CsvContentLines();
    CsvHeaderFields();
    CsvDownload("data:text/csv;charset=utf-8,", CsvHeader + "\n" + CsvPlaceholder, "phishing_analysis_results.csv")
  }
}

=== FILE: session_store.dfy ===
/** The browser's tab-scoped `sessionStorage`, used as a one-slot hand-off
    channel between the upload view and the results view. */
module SessionStore {
  import opened Wrappers

  /** The key under which the upload view leaves the raw report. */
  const AnalysisResultsKey := "analysisResults"

  type Store = map<string, string>

  /** `sessionStorage.getItem(key)`: the stored text, or `null` when nothing is stored. */
  function GetItem(store: Store, key: string): (v: Option<string>)
    ensures v.Some? <==> key in store
    ensures v.Some? ==> v.value == store[key]
  {
    if key in store then Some(store[key]) else None
  }

  /** `sessionStorage.setItem(key, value)`: overwrite the slot; every other key keeps its value. */
  function SetItem(store: Store, key: string, value: string): (store': Store)
    ensures GetItem(store', key) == Some(value)
    ensures forall k :: k != key ==> GetItem(store', k) == GetItem(store, k)
    ensures store'.Keys == store.Keys + {key}
  {
    store[key := value]
  }
}

=== FILE: strings.dfy ===
/** String operations the source borrows from its runtime: JavaScript's
    `String.prototype.includes`, Python's `str.strip()`, and splitting on a
    separator character (used to read the exported CSV back). */
module Strings {

  // ---------------------------------------------------------------------------
  // Substring test
  // ---------------------------------------------------------------------------

  /** `s.includes(sub)`: does `sub` occur in `s` at some offset? Scans offsets left to right. */
  predicate Contains(s: string, sub: string)
    decreases |s|
  {
    (|sub| <= |s| && s[..|sub|] == sub) || (|s| > 0 && Contains(s[1..], sub))
  }

  /** Reference definition: `sub` occupies positions `i .. i + |sub|` of `s`. */
  ghost predicate OccursAt(s: string, sub: string, i: int)
  {
    0 <= i && i + |sub| <= |s| && s[i..i + |sub|] == sub
  }

  /** `sub` occurs somewhere in `s`. */
  ghost predicate Occurs(s: string, sub: string)
  {
    exists i :: OccursAt(s, sub, i)
  }

  lemma TailSlice(s: string, a: int, b: int)
    requires |s| > 0 && 0 <= a <= b <= |s| - 1
    ensures s[1..][a..b] == s[a + 1..b + 1]
  {
    assert forall k :: 0 <= k < b - a ==> s[1..][a..b][k] == s[a + 1..b + 1][k];
  }

  lemma {:induction false} ContainsGivesOffset(s: string, sub: string)
    requires Contains(s, sub)
    ensures Occurs(s, sub)
    decreases |s|
  {
    if |sub| <= |s| && s[..|sub|] == sub {
      assert OccursAt(s, sub, 0);
    } else {
      ContainsGivesOffset(s[1..], sub);
      var j :| OccursAt(s[1..], sub, j);
      TailSlice(s, j, j + |sub|);
      assert OccursAt(s, sub, j + 1);
    }
  }

  lemma {:induction false} OffsetGivesContains(s: string, sub: string, i: int)
    requires OccursAt(s, sub, i)
    ensures Contains(s, sub)
    decreases |s|
  {
    if i == 0 {
      assert s[..|sub|] == s[i..i + |sub|];
    } else {
      TailSlice(s, i - 1, i - 1 + |sub|);
      OffsetGivesContains(s[1..], sub, i - 1);
    }
  }

  /** The scanning test agrees with the offset definition, in both directions. */
  lemma ContainsIffOccurs(s: string, sub: string)
    ensures Contains(s, sub) <==> Occurs(s, sub)
  {
    if Contains(s, sub) {
      ContainsGivesOffset(s, sub);
    }
    if Occurs(s, sub) {
      var i :| OccursAt(s, sub, i);
      OffsetGivesContains(s, sub, i);
    }
  }

  /** A text that never contains the first character of `sub` does not contain `sub`. */
  lemma {:induction false} NotContainsWithoutHead(s: string, sub: string)
    requires |sub| > 0 && sub[0] !in s
    ensures !Contains(s, sub)
    decreases |s|
  {
    if |sub| <= |s| {
      assert s[..|sub|][0] == s[0] && s[0] in s;
      assert s[..|sub|] != sub;
    }
    if |s| > 0 {
      assert forall k :: 0 <= k < |s[1..]| ==> s[1..][k] == s[k + 1];
      NotContainsWithoutHead(s[1..], sub);
    }
  }

  // ---------------------------------------------------------------------------
  // Python's str.strip()
  // ---------------------------------------------------------------------------

  /** `c.isspace()` in Python 3: the ASCII whitespace and separator controls
      plus the Unicode space characters. */
  predicate IsSpace(c: char)
  {
    var n := c as int;
    n == 0x20 || 0x09 <= n <= 0x0D || 0x1C <= n <= 0x1F || n == 0x85 || n == 0xA0
    || n == 0x1680 || 0x2000 <= n <= 0x200A || n == 0x2028 || n == 0x2029
    || n == 0x202F || n == 0x205F || n == 0x3000
  }

  /** Every character of `s` is whitespace. */
  predicate AllSpace(s: string)
  {
    forall k :: 0 <= k < |s| ==> IsSpace(s[k])
  }

  /** `r` has no whitespace at either end. */
  predicate Trimmed(r: string)
  {
    |r| == 0 || (!IsSpace(r[0]) && !IsSpace(r[|r| - 1]))
  }

  /** `r` is `s` with the first `i` characters and some more at the end removed, all of them whitespace. */
  ghost predicate IsTrimAt(s: string, r: string, i: int)
  {
    0 <= i <= |s| - |r| && s[i..i + |r|] == r && AllSpace(s[..i]) && AllSpace(s[i + |r|..])
  }

  /** `r` is `s` with a whitespace prefix and a whitespace suffix removed. */
  ghost predicate IsTrimOf(s: string, r: string)
  {
    exists i :: IsTrimAt(s, r, i)
  }

  /** Index of the first non-whitespace character at or after `i`. */
  function SkipSpace(s: string, i: nat): (k: nat)
    requires i <= |s|
    ensures i <= k <= |s|
    ensures forall m :: i <= m < k ==> IsSpace(s[m])
    ensures k < |s| ==> !IsSpace(s[k])
    decreases |s| - i
  {
    if i < |s| && IsSpace(s[i]) then SkipSpace(s, i + 1) else i
  }

  /** Index just after the last non-whitespace character in `s[lo..j]`, or `lo`. */
  function SkipSpaceBack(s: string, lo: nat, j: nat): (k: nat)
    requires lo <= j <= |s|
    ensures lo <= k <= j
    ensures forall m :: k <= m < j ==> IsSpace(s[m])
    ensures k > lo ==> !IsSpace(s[k - 1])
    decreases j
  {
    if j > lo && IsSpace(s[j - 1]) then SkipSpaceBack(s, lo, j - 1) else j
  }

  /** `s.strip()`: remove leading and trailing whitespace. */
  function Strip(s: string): (r: string)
    ensures Trimmed(r)
    ensures IsTrimOf(s, r)
  {
    var i := SkipSpace(s, 0);
    var j := SkipSpaceBack(s, i, |s|);
    assert s[i..i + |s[i..j]|] == s[i..j];
    assert AllSpace(s[..i]) && AllSpace(s[j..]);
    assert i + |s[i..j]| == j;
    assert IsTrimAt(s, s[i..j], i);
    s[i..j]
  }

  lemma SkipSpaceReaches(s: string, lo: nat, i: nat)
    requires lo <= i <= |s|
    requires forall m :: lo <= m < i ==> IsSpace(s[m])
    ensures SkipSpace(s, lo) >= i
    decreases i - lo
  {
    if lo < i {
      SkipSpaceReaches(s, lo + 1, i);
    }
  }

  lemma SkipSpaceStops(s: string, lo: nat, i: nat)
    requires lo <= i < |s| && !IsSpace(s[i])
    ensures SkipSpace(s, lo) <= i
    decreases i - lo
  {
    if lo < i && IsSpace(s[lo]) {
      SkipSpaceStops(s, lo + 1, i);
    }
  }

  lemma SkipSpaceBackReaches(s: string, lo: nat, j: nat, e: nat)
    requires lo <= e <= j <= |s|
    requires forall m :: e <= m < j ==> IsSpace(s[m])
    ensures SkipSpaceBack(s, lo, j) <= e
    decreases j
  {
    if e < j {
      SkipSpaceBackReaches(s, lo, j - 1, e);
    }
  }

  lemma SkipSpaceBackStops(s: string, lo: nat, j: nat, e: nat)
    requires lo < e <= j <= |s| && !IsSpace(s[e - 1])
    ensures SkipSpaceBack(s, lo, j) >= e
    decreases j
  {
    if e < j && IsSpace(s[j - 1]) {
      SkipSpaceBackStops(s, lo, j - 1, e);
    }
  }

  lemma StripStart(s: string, i: nat)
    requires i <= |s|
    requires forall m :: 0 <= m < i ==> IsSpace(s[m])
    requires i < |s| ==> !IsSpace(s[i])
    ensures SkipSpace(s, 0) == i
  {
    SkipSpaceReaches(s, 0, i);
    if i < |s| {
      SkipSpaceStops(s, 0, i);
    }
  }

  lemma StripEnd(s: string, i: nat, e: nat)
    requires i <= e <= |s|
    requires forall m :: e <= m < |s| ==> IsSpace(s[m])
    requires i < e ==> !IsSpace(s[e - 1])
    ensures SkipSpaceBack(s, i, |s|) == e
  {
    SkipSpaceBackReaches(s, i, |s|, e);
    if i < e {
      SkipSpaceBackStops(s, i, |s|, e);
    }
  }

  /** Cut points with only whitespace outside them and none just inside them are the ones
      `Strip` finds. */
  lemma StripBetween(s: string, i: nat, e: nat)
    requires i <= e <= |s|
    requires forall m :: 0 <= m < i ==> IsSpace(s[m])
    requires forall m :: e <= m < |s| ==> IsSpace(s[m])
    requires i == e ==> i == |s|
    requires i < e ==> !IsSpace(s[i]) && !IsSpace(s[e - 1])
    ensures Strip(s) == s[i..e]
  {
    StripStart(s, i);
    StripEnd(s, i, e);
  }

  lemma TrimAtIsStrip(s: string, r: string, i: int)
    requires IsTrimAt(s, r, i) && Trimmed(r)
    ensures r == Strip(s)
  {
    var e := i + |r|;
    assert forall m :: 0 <= m < i ==> IsSpace(s[m]) by {
      forall m | 0 <= m < i ensures IsSpace(s[m]) { assert s[..i][m] == s[m]; }
    }
    assert forall m :: e <= m < |s| ==> IsSpace(s[m]) by {
      forall m | e <= m < |s| ensures IsSpace(s[m]) { assert s[e..][m - e] == s[m]; }
    }
    if |r| == 0 {
      StripBetween(s, |s|, |s|);
    } else {
      assert r[0] == s[i] && r[|r| - 1] == s[e - 1];
      StripBetween(s, i, e);
    }
  }

  /** Strip is THE trimming: cutting a whitespace prefix and a whitespace suffix off `s`
      so that no whitespace is left at either end always gives `Strip(s)`. */
  lemma TrimIsStrip(s: string, r: string)
    requires IsTrimOf(s, r) && Trimmed(r)
    ensures r == Strip(s)
  {
    var i :| IsTrimAt(s, r, i);
    TrimAtIsStrip(s, r, i);
  }

  /** Stripping twice is stripping once. */
  lemma StripIdempotent(s: string)
    ensures Strip(Strip(s)) == Strip(s)
  {
    var r := Strip(s);
    assert r[0..0 + |r|] == r && r[..0] == [] && r[|r|..] == [];
    assert IsTrimAt(r, r, 0);
    TrimIsStrip(r, r);
  }

  // ---------------------------------------------------------------------------
  // Splitting and joining on a separator
  // ---------------------------------------------------------------------------

  /** JavaScript's `s.split(sep)` for a one-character separator: always at least one part. */
  function Split(s: string, sep: char): (parts: seq<string>)
    ensures |parts| >= 1
    decreases |s|
  {
    if |s| == 0 then [""]
    else
      var rest := Split(s[1..], sep);
      if s[0] == sep then [""] + rest
      else [[s[0]] + rest[0]] + rest[1..]
  }

  /** `parts.join(sep)`. */
  function Join(parts: seq<string>, sep: char): string
  {
    if |parts| == 0 then ""
    else if |parts| == 1 then parts[0]
    else parts[0] + [sep] + Join(parts[1..], sep)
  }

  /** Joining what was split gives the original text back. */
  lemma {:induction false} JoinSplit(s: string, sep: char)
    ensures Join(Split(s, sep), sep) == s
    decreases |s|
  {
    if |s| > 0 {
      var rest := Split(s[1..], sep);
      JoinSplit(s[1..], sep);
      if s[0] != sep {
        if |rest| == 1 {
          assert [s[0]] + rest[0] == s;
        } else {
          assert rest == [rest[0]] + rest[1..];
          assert Join(rest, sep) == rest[0] + [sep] + Join(rest[1..], sep);
          assert ([s[0]] + rest[0]) + [sep] + Join(rest[1..], sep) == [s[0]] + Join(rest, sep);
          assert [s[0]] + s[1..] == s;
        }
      } else {
        assert [""] + rest == [""] + rest;
        assert Join([""] + rest, sep) == [sep] + Join(rest, sep);
        assert [s[0]] + s[1..] == s;
      }
    }
  }

  /** Splitting joined parts that do not contain the separator gives the parts back. */
  lemma {:induction false} SplitJoin(parts: seq<string>, sep: char)
    requires |parts| >= 1
    requires forall k :: 0 <= k < |parts| ==> sep !in parts[k]
    ensures Split(Join(parts, sep), sep) == parts
    decreases |parts|, |parts[0]|
  {
    var p := parts[0];
    if |p| == 0 {
      if |parts| == 1 {
      } else {
        var tail := parts[1..];
        SplitJoin(tail, sep);
        var j := Join(parts, sep);
        assert j == [sep] + Join(tail, sep);
        assert j[1..] == Join(tail, sep);
        assert parts == [""] + tail;
      }
    } else {
      var parts' := [p[1..]] + parts[1..];
      assert forall k :: 0 <= k < |parts'| ==> sep !in parts'[k] by {
        forall k | 0 <= k < |parts'| ensures sep !in parts'[k] {
          if k == 0 { assert forall m :: 0 <= m < |p[1..]| ==> p[1..][m] == p[m + 1]; }
        }
      }
      SplitJoin(parts', sep);
      var j := Join(parts, sep);
      if |parts| == 1 {
        assert j == p && j[1..] == Join(parts', sep);
      } else {
        assert j == p + [sep] + Join(parts[1..], sep);
        assert Join(parts', sep) == p[1..] + [sep] + Join(parts[1..], sep);
        assert j[1..] == Join(parts', sep);
      }
      assert j[0] == p[0] && p[0] != sep;
      assert [p[0]] + p[1..] == p;
    }
  }
}

=== FILE: training.dfy ===
/** The training view (`Client/app/train/page.tsx`): a button triggers the
    training endpoint while a local timer fakes progress. Timer ticks are
    discrete steps whose increment `delta` stands for `Math.random() * 15`;
    the response is abstract: a status that is ok or not, or a transport failure. */
module Training {
  import opened Wrappers

  const SuccessMessage := "Model training completed successfully."
  const FailureMessage := "Training failed. Please check your backend connection."

  /** Progress stops growing once a tick sees this value. */
  const ProgressCeiling: real := 90.0
  /** The exclusive bound of one tick's increment. */
  const MaxStep: real := 15.0

  datatype Status = Idle | Success | Error

  /** The view's React state; `ticking` says whether the progress interval is still live. */
  datatype TrainState = TrainState(isTraining: bool, status: Status, message: string, progress: real, ticking: bool)

  const InitialTraining := TrainState(false, Idle, "", 0.0, false)

  datatype TrainResponse = Responded(ok: bool) | TransportFailure

  /** The synchronous start of `handleTrain`: reset the outcome and start the timer. */
  function StartTraining(s: TrainState): (s': TrainState)
    ensures s'.isTraining && s'.ticking
    ensures s'.status == Idle && s'.message == "" && s'.progress == 0.0
  {
    TrainState(true, Idle, "", 0.0, true)
  }

  /** One firing of the interval. A live timer that sees progress at or above the
      ceiling stops and pins progress to exactly the ceiling; below it, progress grows
      by `delta`. A stopped timer changes nothing. */
  function Tick(s: TrainState, delta: real): (s': TrainState)
    requires 0.0 <= delta < MaxStep
    ensures !s.ticking ==> s' == s
    ensures s.ticking && s.progress >= ProgressCeiling ==> s'.progress == ProgressCeiling && !s'.ticking
    ensures s.ticking && s.progress < ProgressCeiling ==>
              s.progress <= s'.progress < s.progress + MaxStep && s'.ticking
    ensures s'.isTraining == s.isTraining && s'.status == s.status && s'.message == s.message
  {
    if !s.ticking then s
    else if s.progress >= ProgressCeiling then s.(progress := ProgressCeiling, ticking := false)
    else s.(progress := s.progress + delta)
  }

  /** The rest of `handleTrain` once the request settles. The timer is always cleared. */
  function Finish(s: TrainState, response: TrainResponse): (s': TrainState)
    ensures !s'.isTraining && !s'.ticking
    ensures response.Responded? ==> s'.progress == 100.0
    ensures s'.status == Success <==> response.Responded? && response.ok
    ensures s'.status == Success ==> s'.message == SuccessMessage
    ensures s'.status != Success ==> s'.status == Error && s'.message == FailureMessage
    ensures response.TransportFailure? ==> s'.progress == s.progress
  {
    match response
    case Responded(ok) =>
      if ok then TrainState(false, Success, SuccessMessage, 100.0, false)
      else TrainState(false, Error, FailureMessage, 100.0, false)
    case TransportFailure =>
      TrainState(false, Error, FailureMessage, s.progress, false)
  }

  /** `disabled={isTraining}` on the "Start Training" button. */
  predicate StartDisabled(s: TrainState)
  {
    s.isTraining
  }

  /** What every reachable state satisfies: progress stays in `[0, 105)` and the
      timer only runs during a training request. */
  predicate Valid(s: TrainState)
  {
    0.0 <= s.progress < ProgressCeiling + MaxStep && (s.ticking ==> s.isTraining)
  }

  /** Apply the ticks with increments `deltas`, in order. */
  function Ticks(s: TrainState, deltas: seq<real>): TrainState
    requires forall i :: 0 <= i < |deltas| ==> 0.0 <= deltas[i] < MaxStep
    decreases |deltas|
  {
    if deltas == [] then s else Ticks(Tick(s, deltas[0]), deltas[1..])
  }

  /** Every transition keeps the state valid; in particular progress never reaches 105. */
  lemma StepsPreserveValid(s: TrainState, delta: real, response: TrainResponse)
    requires Valid(s) && 0.0 <= delta < MaxStep
    ensures Valid(StartTraining(s))
    ensures Valid(Tick(s, delta))
    ensures Valid(Finish(s, response))
  {
  }

  /** A whole run: start, any number of ticks, then the response. Progress stays
      below 105 throughout, the button is disabled until the end, and afterwards
      the timer is stopped and progress is 100 unless the transport failed. */
  lemma {:induction false} TicksKeepRunning(s: TrainState, deltas: seq<real>)
    requires Valid(s) && s.isTraining
    requires forall i :: 0 <= i < |deltas| ==> 0.0 <= deltas[i] < MaxStep
    ensures Valid(Ticks(s, deltas)) && StartDisabled(Ticks(s, deltas))
    ensures Ticks(s, deltas).status == s.status
    decreases |deltas|
  {
    if deltas != [] {
      TicksKeepRunning(Tick(s, deltas[0]), deltas[1..]);
    }
  }

  lemma TrainingRun(s: TrainState, deltas: seq<real>, response: TrainResponse)
    requires forall i :: 0 <= i < |deltas| ==> 0.0 <= deltas[i] < MaxStep
    ensures var running := Ticks(StartTraining(s), deltas);
            && Valid(running) && StartDisabled(running) && running.status == Idle
            && var done := Finish(running, response);
               && Valid(done) && !StartDisabled(done)
               && (response.Responded? ==> done.progress == 100.0)
  {
    TicksKeepRunning(StartTraining(s), deltas);
  }

  /** The sentence under the progress bar. */
  datatype Phase = Initializing | Processing | TrainingModel | Finalizing

  /** The band of progress a label covers, split at 30, 60 and 90. */
  function PhaseOf(progress: real): (p: Phase)
    ensures p == Initializing <==> progress < 30.0
    ensures p == Processing <==> 30.0 <= progress < 60.0
    ensures p == TrainingModel <==> 60.0 <= progress < 90.0
    ensures p == Finalizing <==> 90.0 <= progress
  {
    if progress < 30.0 then Initializing
    else if progress < 60.0 then Processing
    else if progress < 90.0 then TrainingModel
    else Finalizing
  }

  function PhaseLabel(p: Phase): string
  {
    match p
    case Initializing => "Initializing training..."
    case Processing => "Processing data..."
    case TrainingModel => "Training model..."
    case Finalizing => "Finalizing..."
  }

  function PhaseRank(p: Phase): nat
  {
    match p
    case Initializing => 0
    case Processing => 1
    case TrainingModel => 2
    case Finalizing => 3
  }

  /** The label is a step function of progress: it never goes back as progress grows,
      and no two phases share a label. */
  lemma PhaseIsStepFunction(p: real, q: real)
    ensures p <= q ==> PhaseRank(PhaseOf(p)) <= PhaseRank(PhaseOf(q))
    ensures PhaseLabel(PhaseOf(p)) == PhaseLabel(PhaseOf(q)) <==> PhaseOf(p) == PhaseOf(q)
  {
  }

  /** `Math.round(progress)` shown next to the bar, for the non-negative values progress takes. */
  function RoundedPercent(progress: real): (n: int)
    requires progress >= 0.0
    ensures (n as real) - 0.5 <= progress < (n as real) + 0.5
  {
    (progress + 0.5).Floor
  }

  /** What the progress area shows; nothing when no training request is running. */
  function ProgressView(s: TrainState): (v: Option<(int, string)>)
    requires Valid(s)
    ensures v.Some? <==> s.isTraining
    ensures v.Some? ==> v.value.0 == RoundedPercent(s.progress) && v.value.1 == PhaseLabel(PhaseOf(s.progress))
    ensures v.Some? ==> 0 <= v.value.0 <= 105
  {
    if s.isTraining then Some((RoundedPercent(s.progress), PhaseLabel(PhaseOf(s.progress)))) else None
  }
}

=== FILE: wrappers.dfy ===
/** Failure-compatible wrappers shared by every module of the model. */
module Wrappers {

  /** A value that may be absent: JavaScript's `null`/`undefined`, Python's `None`. */
  datatype Option<+T> = None | Some(value: T)

  /** The outcome of an operation that may raise: a value, or the error it raised. */
  datatype Result<+T, +E> = Ok(value: T) | Err(error: E)
}
